=== FILE: README.md ===
# Borg backup wrapper of LXD storage, in Dafny

This project models the `lxd/storage/borg` package of LXD. The package runs the
external `borg` backup tool against one repository per storage volume. It does
five things:

- It sanitises archive names (`nameEscape`).
- It keeps one mutex per repository location in a process-wide lock map.
- It composes the variables set for the tool and the argument vector of `env KEY=value... borg-wrapper args...`.
- It classifies the process result: exit 0 is success, exit 1 is a warning treated as success, anything else is an error.
- It offers the operations `BorgCreate`, `BorgInit`, `BorgPrepare`, `BorgRestore` and `BorgDelete`, plus the `rmRF` guard that restore uses.

`utils.go` adds `IsBorg` and `GetBorgRepo`, which build a repository descriptor
from a volume's configuration.

The model is functional. Go's `map[string]string` is a Dafny `map<string, string>`.
A missing key reads as `""` (`GoMap.Get`). Starting a process is not modelled.
Each process result is an input value `Completed(stdout, stderr, err)`, one for
every process an operation may start. Each operation returns an `Outcome` that
holds three things: the lock map afterwards, the processes started (in order),
and the Go return value.

Modules, one per component:

| file | module | models |
|---|---|---|
| `options.dfy` | `Options` | `Option`, used for Go's nil-or-error |
| `gomap.dfy` | `GoMap` | zero-value map reads |
| `names.dfy` | `Names` | `nameEscape` and the regular expression `^.+\/` it applies |
| `lock_registry.dfy` | `LockRegistry` | the `lock` map: create-if-absent, one fresh mutex per location |
| `environment.dfy` | `Environment` | baseline environment, merge of caller extras, argv flattening |
| `executor.dfy` | `Executor` | error taxonomy, exit classification, `RunBorg` |
| `facade.dfy` | `Facade` | `rmRF` and the five operations |
| `descriptor.dfy` | `Descriptor` | `IsBorg`, `GetBorgRepo` |

Go iterates maps in an unspecified order. Two loops run in that order, and
both are modelled as methods that pick the next key arbitrarily (`:|`):

- `MergeExtras` is the `for k, v := range extraBorgEnv` loop. It is proved to give the same merge whatever the order.
- `ComposeArgv` is the argv loop. It is proved to emit exactly one `KEY=value` token per entry, in some iteration order.

A started `borg-wrapper` process is recorded as `Spawned.Borg`. The record holds
the mutex held, the descriptor, the extras and the arguments. `Spawned.Env()`
is the set of variables `env` sets for the tool, over the environment it
inherits. The argument vector `env` receives is any `argv` satisfying
`Environment.IsArgv(argv, Env(), args, order)` for some iteration order
`order`; `Executor.LaunchArgv` builds one.

Behaviour of the code worth knowing:

- `BorgRestore` passes `SET_CWD=<destination>` to `borg-wrapper` and sends `extract ::<name>` with no path argument. `BorgCreate` likewise passes `SET_CWD=<source>` and archives `.`. The package never changes the working directory itself; `borg-wrapper` is expected to.
- The only live operations are create, init, prepare, restore and delete. A `prune` operation appears only in a commented-out block.
- `rmRF` refuses only the literal strings `""` and `/`. Other spellings of the root, such as `//`, `/.` or `/tmp/..`, pass the guard, and `find // -mindepth 1 -delete` would then empty the root file system (`Facade.RmRF` follows the code).
- The sanitised name can still contain a `/`. The pattern needs at least one character before the `/`, so `/etc` stays `/etc` (`Names.LeadingSlashKept`). A newline before the last `/` also blocks the match (`Names.NewlineBlocksMatch`).
- A fatal exit returns the bare `*exec.ExitError`. That error carries the exit status, not the captured standard error.
- `GetBorgRepo` reads `borg.sshpass` into the `passphrase` entry, which `RunBorg` never reads. `RunBorg` reads `sshpass`, which `GetBorgRepo` never sets. So `RunBorg` never sets a configured SSH password for the tool (`Descriptor.SshPasswordNeverForwarded`).
- `BorgPrepare` runs `init` after any failed `list`, including a transient failure. A `list` that exits with 1 counts as success.

## Model

| member | source | states |
|---|---|---|
| `GoMap.Get` | lxd/storage/borg/borg.go:96-120 | a missing key reads as `""`, a present key as its value, as every lookup in `RunBorg` and `GetBorgRepo` (utils.go:8-15) does |
| `Names.NameEscapeSpec` | lxd/storage/borg/borg.go:81-85 | `NameEscape` leaves the name unchanged when no prefix matches `^.+\/`; otherwise exactly the longest matching prefix is removed (RE2 semantics: `.` excludes newline, greedy `.+`) |
| `Names.NameEscapeIsSuffix` | lxd/storage/borg/borg.go:81-85 | the sanitised name is always a suffix of the input |
| `Names.NoSlashUnchanged` | lxd/storage/borg/borg.go:81-85 | a name with no `/` is returned unchanged |
| `Names.LastSegmentKept` | lxd/storage/borg/borg.go:81-85 | for a newline-free name with a `/` at index one or later, the result is everything after the last `/` and contains no `/` |
| `Names.NameEscapeIdempotent` | lxd/storage/borg/borg.go:81-85 | sanitising twice equals sanitising once |
| `Names.FooBarBecomesBar` | lxd/storage/borg/borg.go:81-85 | `foo/bar` is sanitised to `bar` |
| `Names.LeadingSlashKept` | lxd/storage/borg/borg.go:82 | a lone leading `/` is not stripped: `/etc` stays `/etc` |
| `Names.NewlineBlocksMatch` | lxd/storage/borg/borg.go:82 | a newline before the last `/` prevents any stripping |
| `LockRegistry.Acquire` | lxd/storage/borg/borg.go:96-99 | an absent location gets a fresh mutex held by no other location; a present one is reused and the map is unchanged; existing entries never change; the registry invariant is kept |
| `LockRegistry.AcquireReuses` | lxd/storage/borg/borg.go:96-99 | a second lookup of the same location returns the same mutex and leaves the map as it was |
| `LockRegistry.MutexPerLocation` | lxd/storage/borg/borg.go:87-101 | two lookups return the same mutex if and only if the locations are equal |
| `LockRegistry.EmptyValid` | lxd/storage/borg/borg.go:87 | the initial empty lock map satisfies the registry invariant |
| `Environment.BaseEnv` | lxd/storage/borg/borg.go:103-121 | the baseline has exactly `BORG_REPO` (the descriptor's `repo`) and `BORG_RSH`, plus `SSH_PASS` if and only if `sshpass` is non-empty; `BORG_RSH` gains ` -i<key>` exactly when `key` is non-empty |
| `Environment.BaseEnvShape` | lxd/storage/borg/borg.go:103-116 | `BORG_RSH` always starts with `ssh -o StrictHostKeyChecking=no`; `BORG_PASSPHRASE` is never set |
| `Environment.PassphraseIgnored` | lxd/storage/borg/borg.go:103-121 | changing the descriptor's `passphrase` entry does not change the baseline environment |
| `Environment.Merge` | lxd/storage/borg/borg.go:123-126 | the merged environment has the keys of both maps; an extra wins on collision; a baseline key not named by the extras keeps its value |
| `Environment.FinalEnv` | lxd/storage/borg/borg.go:103-126 | the variables set for the tool are exactly the baseline's keys and the extras' keys; every extra arrives with its own value; no other key appears; every baseline key the extras do not name (`BORG_REPO`, `BORG_RSH`, `SSH_PASS`) keeps its baseline value |
| `Environment.MergeExtras` | lxd/storage/borg/borg.go:123-126 | the extras loop, taken in any iteration order, yields the merge |
| `Environment.ExtraReachesTool` | lxd/storage/borg/borg.go:123-126 | a single extra is among the variables set for the tool, with its own value |
| `Environment.RepoSurvivesExtra` | lxd/storage/borg/borg.go:123-126 | an extra other than `BORG_REPO` leaves `BORG_REPO` equal to the descriptor's location |
| `Environment.ComposeArgv` | lxd/storage/borg/borg.go:128-139 | argv is one `KEY=value` token per environment entry (each key exactly once, in some order), then `borg-wrapper`, then the operation arguments in order; its length is the entry count plus one plus the argument count |
| `Executor.LaunchArgv` | lxd/storage/borg/borg.go:128-141 | a recorded backup-tool run is started with an argument vector built from its own variables and arguments, as `Environment.ComposeArgv` describes |
| `Executor.ArgvNamesLockedRepository` | lxd/storage/borg/borg.go:96-141 | the command line of a run that holds its repository's lock contains the token `BORG_REPO=<locked location>` |
| `Executor.Classify` | lxd/storage/borg/borg.go:141-158 | stdout is always returned; there is no error if and only if the process succeeded or exited with 1; any other exit code gives `ExitError` with that code; a non-`RunError` error is returned unchanged |
| `Executor.RunBorg` | lxd/storage/borg/borg.go:90-159 | the lock map gains only the descriptor's location (or keeps it) and no other entry changes; one `borg-wrapper` process runs under it; when the extras leave `BORG_REPO` alone, that process targets the locked repository; the reply is the classification |
| `Executor.HeldLockTargetsRepository` | lxd/storage/borg/borg.go:96-104 | a run that holds a location's mutex, and whose extras leave `BORG_REPO` alone, has `BORG_REPO` equal to that location |
| `Executor.LocksCompose` | lxd/storage/borg/borg.go:96-101 | running operations one after another keeps the rule "each process holds its own repository's mutex" |
| `Executor.OverriddenRepoEscapesLock` | lxd/storage/borg/borg.go:96-126 | an extra that overrides `BORG_REPO` makes the tool target a repository other than the one whose mutex is held |
| `Executor.WarningIsSuccess` | lxd/storage/borg/borg.go:146-149 | exit code 1 gives the captured output and no error |
| `Executor.ExitTwoIsFatal` | lxd/storage/borg/borg.go:150-153 | exit code 2 gives the output and an exit error with code 2 |
| `Facade.RmRF` | lxd/storage/borg/borg.go:161-180 | `""` and `/` are refused with the delete-root error before any process starts; otherwise `find <folder> -mindepth 1 -delete` runs once; every non-zero exit is an error, including 1; any other error, including a `RunError` with exit code 0, is returned unchanged |
| `Facade.Create` | lxd/storage/borg/borg.go:183-195 | the lock map gains only the descriptor's location; exactly one run, under that location's mutex, with the caller's descriptor, extras `SET_CWD` = source folder and arguments `create --stats ::<sanitised> .`; the reply is its classification |
| `Facade.Init` | lxd/storage/borg/borg.go:197-201 | the lock map gains only the descriptor's location; exactly one run, under that location's mutex, with the caller's descriptor, extras `YES_PIPE` = `1` and arguments `init -e none`; the reply is its classification |
| `Facade.List` | lxd/storage/borg/borg.go:207-209 | the lock map gains only the descriptor's location; exactly one run, under that location's mutex, with the caller's descriptor, extras `YES_PIPE` = `1` and argument `list`; the reply is its classification |
| `Facade.Prepare` | lxd/storage/borg/borg.go:204-222 | the lock map gains only the descriptor's location; `list` runs first with the caller's descriptor; if it succeeds (or warns), nothing else runs and the result is nil; if it fails, `init` runs exactly once with the same descriptor and lock and its error is returned |
| `Facade.Extract` | lxd/storage/borg/borg.go:236-240 | the lock map gains only the descriptor's location; exactly one run, under that location's mutex, with the caller's descriptor, extras `SET_CWD` = destination folder and arguments `extract ::<sanitised>`; the reply is its classification |
| `Facade.Restore` | lxd/storage/borg/borg.go:225-241 | when the guard or the delete fails, the lock map is untouched, no backup-tool run starts, and the result is `("", err)`; otherwise the lock map gains only the descriptor's location and the delete is followed by exactly one extract run with the caller's descriptor, under that location's mutex, whose reply is returned |
| `Facade.Delete` | lxd/storage/borg/borg.go:244-252 | the lock map gains only the descriptor's location; exactly one run, under that location's mutex, with the caller's descriptor, extras with the literal key `YeS_PIPE` = `1` and arguments `delete ::<sanitised> --force`; the reply is its classification |
| `Facade.RestoreRefusesRoot` | lxd/storage/borg/borg.go:225-234 | restoring into `""` or `/` fails with the delete-root error and starts no process |
| `Facade.RestoreAbortsOnFindWarning` | lxd/storage/borg/borg.go:166-176 | a `find` that exits with 1 aborts the restore with exit error 1 before the repository is touched |
| `Facade.ArchiveTokenAgrees` | lxd/storage/borg/borg.go:184-251 | create, restore and delete of the same name send the identical `::<sanitised>` token |
| `Descriptor.IsBorg` | lxd/storage/borg/utils.go:7-9 | a present `borg.enabled` value is judged by `shared.IsTrue`; an absent entry is judged as `""` |
| `Descriptor.IsBorgReadsOnlyEnabled` | lxd/storage/borg/utils.go:7-9 | the enablement check depends only on `borg.enabled` |
| `Descriptor.GetBorgRepo` | lxd/storage/borg/utils.go:11-17 | the descriptor has exactly the keys `repo`, `passphrase` and `key`; `repo` is `borg.repo` + `/` + volume name; `passphrase` comes from `borg.sshpass`; `key` comes from `borg.sshkey`; unset entries read as `""` |
| `Descriptor.DistinctVolumesDistinctRepos` | lxd/storage/borg/utils.go:13 | distinct volume names give distinct repository locations |
| `Descriptor.DistinctVolumesDistinctLocks` | lxd/storage/borg/utils.go:13 | distinct volume names give distinct mutexes |
| `Descriptor.DescriptorEnv` | lxd/storage/borg/utils.go:12-16 | for a descriptor from `GetBorgRepo`, the baseline has only `BORG_REPO` and `BORG_RSH`; `-i<key>` is added only for a non-empty `borg.sshkey` |
| `Descriptor.SshPasswordNeverForwarded` | lxd/storage/borg/utils.go:14 | the configured `borg.sshpass` has no effect on the variables set for the tool, for any extras |

## Left out

- `borg-wrapper` itself, including how it handles `SET_CWD` (changing into the folder) and `YES_PIPE`/`YeS_PIPE` (answering prompts). It is an external program; the model records only the variables passed to it.
- Process execution (`shared.RunCommandE` for `env` and `find`). Each result is an input value, so no process is run.
- The mutex's blocking behaviour, and the data race on the unsynchronised global `lock` map. Concurrency is not modelled; only the map's create-if-absent behaviour and the identity of each mutex are.
- Logging (`logger.Infof`, `Warnf`, `Crit`). It has no effect on results. Standard error appears in `Completed` only because it is logged.
- `shared.IsTrue`. It is a parameter `isTrue: string -> bool` of `Descriptor.IsBorg`.
- The unchecked `runError.Err.(*exec.ExitError)` assertions (borg.go lines 145 and 170). They would dereference nil if a `RunError` did not wrap an exit error. The model assumes every `RunError` carries an exit code (`Error.RunError(exitCode)`).
- The commented-out JavaScript block (borg.go lines 15-79) and the commented-out passphrase wiring (lines 105 and 110-112). They are not live code, and `prune` and the exclude options exist only there.
- Byte semantics of Go strings. Names are Dafny strings (`seq<char>`). Only the ASCII characters `/` and newline matter to the pattern, so the modelled behaviour is the same.
- The environment `env` inherits from the LXD daemon. `env KEY=value...` adds its variables on top of it, so the tool also sees the daemon's own variables (an inherited `BORG_PASSPHRASE`, say). The model covers only the variables `env` sets (`Spawned.Env()`).

=== FILE: descriptor.dfy ===
/**
  `lxd/storage/borg/utils.go`: the enablement check and the repository
  descriptor built from a storage volume's configuration.
*/
module Descriptor {
  import opened GoMap
  import opened LockRegistry
  import opened Environment

  /**
    `IsBorg`: the volume is backed up when its `borg.enabled` entry is true
    according to `isTrue`, which stands for `shared.IsTrue`.
  */
  function IsBorg(config: map<string, string>, isTrue: string -> bool): (r: bool)
    ensures "borg.enabled" in config ==> r == isTrue(config["borg.enabled"])
    ensures "borg.enabled" !in config ==> r == isTrue("")
  {
    isTrue(Get(config, "borg.enabled"))
  }

  /** No configuration entry other than `borg.enabled` affects `IsBorg`. */
  lemma IsBorgReadsOnlyEnabled(c1: map<string, string>, c2: map<string, string>, isTrue: string -> bool)
    requires Get(c1, "borg.enabled") == Get(c2, "borg.enabled")
    ensures IsBorg(c1, isTrue) == IsBorg(c2, isTrue)
  {
  }

  /**
    `GetBorgRepo`: the descriptor of volume `volName` — exactly the entries
    `repo` (the configured base location, `/`, the volume name), `passphrase`
    (read from `borg.sshpass`) and `key` (read from `borg.sshkey`); an unset
    entry reads as `""`.
  */
  function GetBorgRepo(config: map<string, string>, volName: string): (repo: map<string, string>)
    ensures repo.Keys == {"repo", "passphrase", "key"}
    ensures repo["repo"] == Get(config, "borg.repo") + "/" + volName
    ensures repo["passphrase"] == Get(config, "borg.sshpass")
    ensures repo["key"] == Get(config, "borg.sshkey")
  {
    map[
      "repo" := Get(config, "borg.repo") + "/" + volName,
      "passphrase" := Get(config, "borg.sshpass"),
      "key" := Get(config, "borg.sshkey")
    ]
  }

  /** Different volumes under one configuration get different repository locations. */
  lemma {:induction false} DistinctVolumesDistinctRepos(config: map<string, string>, v1: string, v2: string)
    requires v1 != v2
    ensures GetBorgRepo(config, v1)["repo"] != GetBorgRepo(config, v2)["repo"]
  {
    var base := Get(config, "borg.repo") + "/";
    assert (base + v1)[|base|..] == v1;
    assert (base + v2)[|base|..] == v2;
  }

  /**
    ... and therefore different entries of the lock map: operations on two
    volumes never wait for each other.
  */
  lemma {:induction false} DistinctVolumesDistinctLocks(reg: Registry, config: map<string, string>, v1: string, v2: string)
    requires Valid(reg)
    requires v1 != v2
    ensures var a := Acquire(reg, Get(GetBorgRepo(config, v1), "repo"));
            var b := Acquire(a.registry, Get(GetBorgRepo(config, v2), "repo"));
            a.mutex != b.mutex
  {
    DistinctVolumesDistinctRepos(config, v1, v2);
    MutexPerLocation(reg, Get(GetBorgRepo(config, v1), "repo"), Get(GetBorgRepo(config, v2), "repo"));
  }

  /**
    The baseline environment of a descriptor built here: the descriptor has no
    `sshpass` entry, so `SSH_PASS` is never set; the remote shell gains
    `-i<key>` only when `borg.sshkey` is set and non-empty.
  */
  lemma DescriptorEnv(config: map<string, string>, volName: string)
    ensures var env := BaseEnv(GetBorgRepo(config, volName));
            && env.Keys == {"BORG_REPO", "BORG_RSH"}
            && env["BORG_REPO"] == Get(config, "borg.repo") + "/" + volName
            && (Get(config, "borg.sshkey") == "" ==> env["BORG_RSH"] == RshDefault)
            && (Get(config, "borg.sshkey") != "" ==> env["BORG_RSH"] == RshDefault + " -i" + Get(config, "borg.sshkey"))
  {
  }

  /**
    The configured `borg.sshpass` never reaches the variables set for the
    backup tool, whatever extras the operation passes.
  */
  lemma SshPasswordNeverForwarded(config: map<string, string>, volName: string, p: string,
                                  extras: map<string, string>)
    ensures BaseEnv(GetBorgRepo(config["borg.sshpass" := p], volName)) == BaseEnv(GetBorgRepo(config, volName))
    ensures FinalEnv(GetBorgRepo(config["borg.sshpass" := p], volName), extras)
            == FinalEnv(GetBorgRepo(config, volName), extras)
  {
  }

}

=== FILE: environment.dfy ===
/**
  The command composer inside `RunBorg` (`lxd/storage/borg/borg.go`): the
  variables set for the backup tool and the argument vector of the `env`
  command that starts it.
*/
module Environment {
  import opened GoMap

  /** The remote-shell command every invocation starts from. */
  const RshDefault := "ssh -o StrictHostKeyChecking=no"

  /** The program `env` runs once the variables are set. */
  const Wrapper := "borg-wrapper"

  /**
    The baseline environment built from a repository descriptor: the
    repository location, the remote shell (with `-i<key>` when a key is set)
    and `SSH_PASS` when the descriptor carries an `sshpass` entry. The
    passphrase is never forwarded.
  */
  function BaseEnv(repo: map<string, string>): (env: map<string, string>)
    ensures env.Keys == {"BORG_REPO", "BORG_RSH"} + (if Get(repo, "sshpass") != "" then {"SSH_PASS"} else {})
    ensures env["BORG_REPO"] == Get(repo, "repo")
    ensures Get(repo, "key") == "" ==> env["BORG_RSH"] == RshDefault
    ensures Get(repo, "key") != "" ==> env["BORG_RSH"] == RshDefault + " -i" + Get(repo, "key")
    ensures "SSH_PASS" in env ==> env["SSH_PASS"] == Get(repo, "sshpass")
  {
    var env := map["BORG_REPO" := Get(repo, "repo"), "BORG_RSH" := RshDefault];
    var env := if Get(repo, "key") != "" then env["BORG_RSH" := env["BORG_RSH"] + " -i" + Get(repo, "key")] else env;
    if Get(repo, "sshpass") != "" then env["SSH_PASS" := Get(repo, "sshpass")] else env
  }

  /** Host-key checking stays off whatever key is configured, and no passphrase variable is set. */
  lemma BaseEnvShape(repo: map<string, string>)
    ensures var rsh := BaseEnv(repo)["BORG_RSH"];
            |RshDefault| <= |rsh| && rsh[..|RshDefault|] == RshDefault
    ensures "BORG_PASSPHRASE" !in BaseEnv(repo)
  {
  }

  /** The descriptor's `passphrase` entry has no influence on the baseline environment. */
  lemma PassphraseIgnored(repo: map<string, string>, p: string)
    ensures BaseEnv(repo["passphrase" := p]) == BaseEnv(repo)
  {
  }

  /**
    Caller extras merged over the baseline: every key of either, the extra's
    value on a collision, the baseline's value otherwise.
  */
  function Merge(base: map<string, string>, extras: map<string, string>): (env: map<string, string>)
    ensures env.Keys == base.Keys + extras.Keys
    ensures forall k :: k in extras ==> env[k] == extras[k]
    ensures forall k :: k in base && k !in extras ==> env[k] == base[k]
  {
    base + extras
  }

  /** The variables `RunBorg` sets for the tool. */
  function FinalEnv(repo: map<string, string>, extras: map<string, string>): (env: map<string, string>)
    ensures env.Keys == BaseEnv(repo).Keys + extras.Keys
    ensures forall k :: k in extras ==> k in env && env[k] == extras[k]
    ensures forall k :: k in BaseEnv(repo) && k !in extras ==> env[k] == BaseEnv(repo)[k]
    ensures "BORG_REPO" !in extras ==> "BORG_REPO" in env && env["BORG_REPO"] == Get(repo, "repo")
  {
    Merge(BaseEnv(repo), extras)
  }

  /** One iteration of the merge loop: assigning one more extra key. */
  lemma MergeStep(base: map<string, string>, extras: map<string, string>, pending: set<string>, k: string)
    requires k in pending && pending <= extras.Keys
    ensures (base + (extras - pending))[k := extras[k]] == base + (extras - (pending - {k}))
  {
  }

  /** A single caller extra reaches the tool with its own value. */
  lemma ExtraReachesTool(repo: map<string, string>, k: string, v: string)
    ensures k in FinalEnv(repo, map[k := v]) && FinalEnv(repo, map[k := v])[k] == v
  {
  }

  /** A single caller extra other than `BORG_REPO` leaves the repository variable alone. */
  lemma RepoSurvivesExtra(repo: map<string, string>, k: string, v: string)
    requires k != "BORG_REPO"
    ensures "BORG_REPO" in FinalEnv(repo, map[k := v])
    ensures FinalEnv(repo, map[k := v])["BORG_REPO"] == Get(repo, "repo")
  {
  }

  /**
    The `for k, v := range extraBorgEnv` loop, visiting the extras in any
    order: whatever order Go picks, the result is the merge.
  */
  method MergeExtras(base: map<string, string>, extras: map<string, string>) returns (env: map<string, string>)
    ensures env == Merge(base, extras)
  {
    env := base;
    var pending := extras.Keys;
    while pending != {}
      invariant pending <= extras.Keys
      invariant env == base + (extras - pending)
      decreases pending
    {
      var k :| k in pending;
      MergeStep(base, extras, pending, k);
      env := env[k := extras[k]];
      pending := pending - {k};
    }
    assert extras - pending == extras;
  }

  /** One `KEY=value` token, as `fmt.Sprintf("%s=%s", key, value)` prints it. */
  function Token(k: string, v: string): string
  {
    k + "=" + v
  }

  /** A Go map iteration order: every key exactly once. */
  ghost predicate IsIterationOrder(env: map<string, string>, order: seq<string>)
  {
    && |order| == |env|
    && (forall i :: 0 <= i < |order| ==> order[i] in env)
    && (forall k :: k in env ==> k in order)
    && (forall i, j :: 0 <= i < j < |order| ==> order[i] != order[j])
  }

  /**
    `argv` is the argument vector `env` receives for environment `env` and
    operation arguments `borgArgs`: one `KEY=value` token per entry in the
    iteration order `order`, then `borg-wrapper`, then the arguments in their
    original order.
  */
  ghost predicate IsArgv(argv: seq<string>, env: map<string, string>, borgArgs: seq<string>, order: seq<string>)
  {
    && IsIterationOrder(env, order)
    && |argv| == |env| + 1 + |borgArgs|
    && (forall i :: 0 <= i < |order| ==> argv[i] == Token(order[i], env[order[i]]))
    && argv[|env|] == Wrapper
    && argv[|env| + 1..] == borgArgs
  }

  /** The argv loop, in Go's unspecified map order. */
  method ComposeArgv(env: map<string, string>, borgArgs: seq<string>) returns (argv: seq<string>, order: seq<string>)
    ensures IsArgv(argv, env, borgArgs, order)
  {
    argv, order := [], [];
    var pending := env.Keys;
    while pending != {}
      invariant pending <= env.Keys
      invariant |order| + |pending| == |env|
      invariant forall i :: 0 <= i < |order| ==> order[i] in env && order[i] !in pending
      invariant forall k :: k in env && k !in pending ==> k in order
      invariant forall i, j :: 0 <= i < j < |order| ==> order[i] != order[j]
      invariant |argv| == |order|
      invariant forall i :: 0 <= i < |order| ==> argv[i] == Token(order[i], env[order[i]])
      decreases |pending|
    {
      var k :| k in pending;
      argv := argv + [Token(k, env[k])];
      order := order + [k];
      pending := pending - {k};
    }
    argv := argv + [Wrapper] + borgArgs;
  }

}

=== FILE: executor.dfy ===
/**
  The executor half of `RunBorg` (`lxd/storage/borg/borg.go`): take the
  repository's mutex, start `env KEY=value... borg-wrapper args...`, and turn
  the process result into the `(string, error)` pair the callers see.

  Starting the process is not modelled: its result is an input.
*/
module Executor {
  import opened Options
  import opened GoMap
  import opened LockRegistry
  import opened Environment

  /** The errors that reach the callers of this package. */
  datatype Error =
    /** a `shared.RunError` whose inner `*exec.ExitError` reports `exitCode` */
    | RunError(exitCode: int)
    /** the bare `*exec.ExitError` unwrapped from a `RunError` */
    | ExitError(exitCode: int)
    /** an error `shared.RunCommandE` returns without wrapping it in a `RunError` */
    | OtherError(message: string)
    /** `errors.New("Tried to delete root")` from the delete guard */
    | DeleteRootError

  /** What `shared.RunCommandE` returns: standard output, standard error, error. */
  datatype Completed = Completed(stdout: string, stderr: string, err: Option<Error>)

  /** The `(string, error)` result of `RunBorg` and the operations built on it. */
  datatype Reply = Reply(out: string, err: Option<Error>)

  /** One process started by the package. */
  datatype Spawned =
    /**
      `env ... borg-wrapper args...` started under mutex `held`, its
      variables composed from descriptor `repo` and caller extras `extras`;
      the argument vector `env` receives is any `argv` with
      `IsArgv(argv, Env(), args, order)` for some iteration order `order`
    */
    | Borg(held: Mutex, repo: map<string, string>, extras: map<string, string>, args: seq<string>)
    /** `find args...`, the recursive delete of the restore target */
    | Find(args: seq<string>)
  {
    /** The variables `env` sets for the tool, over the environment it inherits. */
    function Env(): map<string, string>
      requires Borg?
    {
      FinalEnv(repo, extras)
    }
  }

  /** The state after an operation: the lock map, the processes started in order, and the result. */
  datatype Outcome<+T> = Outcome(registry: Registry, spawned: seq<Spawned>, value: T)

  /**
    Exit-status classification: success and exit code 1 (a warning) both give
    standard output and no error; any other exit code gives the bare exit
    error; an error that is not a `RunError` is passed back unchanged.
    Standard output is returned in every case.
  */
  function Classify(c: Completed): (r: Reply)
    ensures r.out == c.stdout
    ensures r.err.None? <==> (c.err.None? || c.err == Some(RunError(1)))
    ensures c.err.Some? && c.err.value.RunError? && c.err.value.exitCode !in {0, 1} ==>
              r.err == Some(ExitError(c.err.value.exitCode))
    ensures c.err.Some? && !c.err.value.RunError? ==> r.err == c.err
    ensures c.err == Some(RunError(0)) ==> r.err == c.err
  {
    match c.err
    case None => Reply(c.stdout, None)
    case Some(e) =>
      if e.RunError? then
        if e.exitCode == 1 then Reply(c.stdout, None)
        else if e.exitCode != 0 then Reply(c.stdout, Some(ExitError(e.exitCode)))
        else Reply(c.stdout, c.err)
      else Reply(c.stdout, c.err)
  }

  /**
    A `borg-wrapper` run that held the mutex registered for `loc`, for a
    descriptor of location `loc` whose extras leave `BORG_REPO` alone; `find`
    runs take no lock.
  */
  ghost predicate HeldRepositoryLock(registry: Registry, step: Spawned, loc: string)
  {
    step.Borg? ==>
      && loc in registry
      && step.held == registry[loc]
      && Get(step.repo, "repo") == loc
      && "BORG_REPO" !in step.extras
  }

  /** Such a run pointed the tool at the very repository whose mutex it held. */
  lemma HeldLockTargetsRepository(registry: Registry, step: Spawned, loc: string)
    requires step.Borg? && HeldRepositoryLock(registry, step, loc)
    ensures "BORG_REPO" in step.Env() && step.Env()["BORG_REPO"] == loc
    ensures step.held == registry[loc]
  {
  }

  /** The argument vector `env` receives for a recorded backup-tool run. */
  method LaunchArgv(step: Spawned) returns (argv: seq<string>, order: seq<string>)
    requires step.Borg?
    ensures IsArgv(argv, step.Env(), step.args, order)
  {
    argv, order := ComposeArgv(step.Env(), step.args);
  }

  /**
    The command line of a run that holds its repository's lock names that
    repository: one of its `KEY=value` tokens is `BORG_REPO=<location>`.
  */
  lemma {:induction false} ArgvNamesLockedRepository(registry: Registry, step: Spawned, loc: string,
                                                     argv: seq<string>, order: seq<string>)
    requires step.Borg? && HeldRepositoryLock(registry, step, loc)
    requires IsArgv(argv, step.Env(), step.args, order)
    ensures Token("BORG_REPO", loc) in argv[..|step.Env()|]
  {
    var env := step.Env();
    HeldLockTargetsRepository(registry, step, loc);
    assert "BORG_REPO" in order;
    var i :| 0 <= i < |order| && order[i] == "BORG_REPO";
    assert argv[..|env|][i] == Token("BORG_REPO", loc);
  }

  /**
    Every process started under the descriptor's lock, against the
    descriptor's repository: the lock serialises exactly that repository.
  */
  ghost predicate LocksItsRepository(registry: Registry, spawned: seq<Spawned>, repo: map<string, string>)
  {
    forall step :: step in spawned ==> HeldRepositoryLock(registry, step, Get(repo, "repo"))
  }

  /** Running one operation after another keeps the lock discipline of both. */
  lemma LocksCompose(r1: Registry, s1: seq<Spawned>, r2: Registry, s2: seq<Spawned>, repo: map<string, string>)
    requires LocksItsRepository(r1, s1, repo) && LocksItsRepository(r2, s2, repo)
    requires forall l :: l in r1 ==> l in r2 && r2[l] == r1[l]
    ensures LocksItsRepository(r2, s1 + s2, repo)
  {
  }

  /**
    `RunBorg(repo, extraBorgEnv, borgArgs...)`: lock the mutex registered for
    `repo["repo"]` (creating it on first use), start the tool once with the
    composed environment and the given arguments, and classify its result.
  */
  function RunBorg(reg: Registry, repo: map<string, string>, extras: map<string, string>,
                   borgArgs: seq<string>, proc: Completed): (r: Outcome<Reply>)
    requires Valid(reg)
    ensures Valid(r.registry)
    ensures Extends(reg, r.registry, Get(repo, "repo"))
    ensures r.spawned == [Borg(r.registry[Get(repo, "repo")], repo, extras, borgArgs)]
    ensures "BORG_REPO" !in extras ==> LocksItsRepository(r.registry, r.spawned, repo)
    ensures r.value == Classify(proc)
  {
    var lease := Acquire(reg, Get(repo, "repo"));
    Outcome(lease.registry, [Borg(lease.mutex, repo, extras, borgArgs)], Classify(proc))
  }

  /**
    The lock is keyed by the descriptor's location, not by the final
    environment: an extra that overrides `BORG_REPO` points the tool at a
    repository other than the one whose mutex is held.
  */
  lemma OverriddenRepoEscapesLock(reg: Registry, repo: map<string, string>, other: string,
                                  borgArgs: seq<string>, proc: Completed)
    requires Valid(reg)
    requires other != Get(repo, "repo")
    ensures var r := RunBorg(reg, repo, map["BORG_REPO" := other], borgArgs, proc);
            && r.spawned[0].held == r.registry[Get(repo, "repo")]
            && r.spawned[0].Env()["BORG_REPO"] == other
  {
  }

  /** A process that exits with 1 still lets the caller proceed, output attached. */
  lemma WarningIsSuccess(out: string, errText: string)
    ensures Classify(Completed(out, errText, Some(RunError(1)))) == Reply(out, None)
  {
  }

  /** Exit code 2 is fatal and carries the exit status. */
  lemma ExitTwoIsFatal(out: string, errText: string)
    ensures Classify(Completed(out, errText, Some(RunError(2)))) == Reply(out, Some(ExitError(2)))
  {
  }

}

=== FILE: facade.dfy ===
/**
  The public operations of `lxd/storage/borg/borg.go`, each a fixed argument
  template run through `RunBorg`, plus the `rmRF` guard used by restore.
  Every process result is an input, one per process the operation may start.
*/
module Facade {
  import opened Options
  import opened GoMap
  import opened LockRegistry
  import opened Environment
  import opened Names
  import opened Executor

  /** The archive argument shared by create, restore and delete. */
  function ArchiveToken(name: string): string
  {
    "::" + NameEscape(name)
  }

  /** Result of `rmRF`: the processes it started and its error. */
  datatype Cleanup = Cleanup(spawned: seq<Spawned>, err: Option<Error>)

  /**
    `rmRF(folder)`: refuse the empty path and `/` before anything runs;
    otherwise empty the folder with `find <folder> -mindepth 1 -delete`. Unlike
    `RunBorg`, every non-zero exit code of `find` is an error.
  */
  function RmRF(folder: string, find: Completed): (r: Cleanup)
    ensures folder == "" || folder == "/" ==> r == Cleanup([], Some(DeleteRootError))
    ensures folder != "" && folder != "/" ==> r.spawned == [Find([folder, "-mindepth", "1", "-delete"])]
    ensures r.err.None? <==> folder != "" && folder != "/" && find.err.None?
    ensures folder != "" && folder != "/" && find.err.Some? && find.err.value.RunError? && find.err.value.exitCode != 0 ==>
              r.err == Some(ExitError(find.err.value.exitCode))
    ensures folder != "" && folder != "/" && find.err.Some? && !find.err.value.RunError? ==> r.err == find.err
    ensures folder != "" && folder != "/" && find.err == Some(RunError(0)) ==> r.err == find.err
  {
    if folder == "" || folder == "/" then Cleanup([], Some(DeleteRootError))
    else
      var spawned := [Find([folder, "-mindepth", "1", "-delete"])];
      match find.err
      case None => Cleanup(spawned, None)
      case Some(e) =>
        if e.RunError? && e.exitCode != 0 then Cleanup(spawned, Some(ExitError(e.exitCode)))
        else Cleanup(spawned, find.err)
  }

  /**
    `BorgCreate`: archive `.` under the sanitised name, with `SET_CWD` naming
    the source folder that `borg-wrapper` is expected to change into.
  */
  function Create(reg: Registry, repo: map<string, string>, name: string, sourceFolder: string,
                  proc: Completed): (r: Outcome<Reply>)
    requires Valid(reg)
    ensures Valid(r.registry)
    ensures LocksItsRepository(r.registry, r.spawned, repo)
    ensures Extends(reg, r.registry, Get(repo, "repo"))
    ensures r.spawned == [Borg(r.registry[Get(repo, "repo")], repo, map["SET_CWD" := sourceFolder],
                               ["create", "--stats", ArchiveToken(name), "."])]
    ensures r.value == Classify(proc)
  {
    RunBorg(reg, repo, map["SET_CWD" := sourceFolder], ["create", "--stats", ArchiveToken(name), "."], proc)
  }

  /** `BorgInit`: create an unencrypted repository, answering yes to prompts. */
  function Init(reg: Registry, repo: map<string, string>, proc: Completed): (r: Outcome<Reply>)
    requires Valid(reg)
    ensures Valid(r.registry)
    ensures LocksItsRepository(r.registry, r.spawned, repo)
    ensures Extends(reg, r.registry, Get(repo, "repo"))
    ensures r.spawned == [Borg(r.registry[Get(repo, "repo")], repo, map["YES_PIPE" := "1"], ["init", "-e", "none"])]
    ensures r.value == Classify(proc)
  {
    RunBorg(reg, repo, map["YES_PIPE" := "1"], ["init", "-e", "none"], proc)
  }

  /** The `list` probe `BorgPrepare` starts with. */
  function List(reg: Registry, repo: map<string, string>, proc: Completed): (r: Outcome<Reply>)
    requires Valid(reg)
    ensures Valid(r.registry)
    ensures LocksItsRepository(r.registry, r.spawned, repo)
    ensures Extends(reg, r.registry, Get(repo, "repo"))
    ensures r.spawned == [Borg(r.registry[Get(repo, "repo")], repo, map["YES_PIPE" := "1"], ["list"])]
    ensures r.value == Classify(proc)
  {
    RunBorg(reg, repo, map["YES_PIPE" := "1"], ["list"], proc)
  }

  /**
    `BorgPrepare`: run `list`; when it fails (for any reason) run `init` once
    and return its error. Exit code 1 of `list` is a warning, not a failure.
  */
  function Prepare(reg: Registry, repo: map<string, string>, list: Completed, init: Completed): (r: Outcome<Option<Error>>)
    requires Valid(reg)
    ensures Valid(r.registry)
    ensures LocksItsRepository(r.registry, r.spawned, repo)
    ensures Extends(reg, r.registry, Get(repo, "repo"))
    ensures 1 <= |r.spawned|
    ensures r.spawned[0] == Borg(r.registry[Get(repo, "repo")], repo, map["YES_PIPE" := "1"], ["list"])
    ensures Classify(list).err.None? ==> |r.spawned| == 1 && r.value.None?
    ensures Classify(list).err.Some? ==>
              && |r.spawned| == 2
              && r.spawned[1] == Borg(r.registry[Get(repo, "repo")], repo, map["YES_PIPE" := "1"], ["init", "-e", "none"])
              && r.value == Classify(init).err
  {
    var listed := List(reg, repo, list);
    if listed.value.err.Some? then
      var initialised := Init(listed.registry, repo, init);
      LocksCompose(listed.registry, listed.spawned, initialised.registry, initialised.spawned, repo);
      Outcome(initialised.registry, listed.spawned + initialised.spawned, initialised.value.err)
    else
      Outcome(listed.registry, listed.spawned, None)
  }

  /**
    The `extract` half of `BorgRestore`: `SET_CWD` names the emptied destination
    folder, which `borg-wrapper` is expected to change into.
  */
  function Extract(reg: Registry, repo: map<string, string>, name: string, destFolder: string,
                   proc: Completed): (r: Outcome<Reply>)
    requires Valid(reg)
    ensures Valid(r.registry)
    ensures LocksItsRepository(r.registry, r.spawned, repo)
    ensures Extends(reg, r.registry, Get(repo, "repo"))
    ensures r.spawned == [Borg(r.registry[Get(repo, "repo")], repo, map["SET_CWD" := destFolder],
                               ["extract", ArchiveToken(name)])]
    ensures r.value == Classify(proc)
  {
    RunBorg(reg, repo, map["SET_CWD" := destFolder], ["extract", ArchiveToken(name)], proc)
  }

  /**
    `BorgRestore`: empty the destination folder, then extract the archive
    into it. When the guard or the delete fails the repository is never
    touched and the result is `("", err)`.
  */
  function Restore(reg: Registry, repo: map<string, string>, name: string, destFolder: string,
                   find: Completed, extract: Completed): (r: Outcome<Reply>)
    requires Valid(reg)
    ensures Valid(r.registry)
    ensures LocksItsRepository(r.registry, r.spawned, repo)
    ensures var c := RmRF(destFolder, find);
            c.err.Some? ==> r.registry == reg && r.spawned == c.spawned && r.value == Reply("", c.err)
    ensures var c := RmRF(destFolder, find);
            c.err.None? ==>
              && Extends(reg, r.registry, Get(repo, "repo"))
              && |r.spawned| == 2 && r.spawned[0] == c.spawned[0]
              && r.spawned[1] == Borg(r.registry[Get(repo, "repo")], repo, map["SET_CWD" := destFolder],
                                      ["extract", ArchiveToken(name)])
              && r.value == Classify(extract)
  {
    var cleanup := RmRF(destFolder, find);
    if cleanup.err.Some? then Outcome(reg, cleanup.spawned, Reply("", cleanup.err))
    else
      var run := Extract(reg, repo, name, destFolder, extract);
      LocksCompose(reg, cleanup.spawned, run.registry, run.spawned, repo);
      Outcome(run.registry, cleanup.spawned + run.spawned, run.value)
  }

  /** `BorgDelete`: remove the archive, forcing past inconsistencies. */
  function Delete(reg: Registry, repo: map<string, string>, name: string, proc: Completed): (r: Outcome<Reply>)
    requires Valid(reg)
    ensures Valid(r.registry)
    ensures LocksItsRepository(r.registry, r.spawned, repo)
    ensures Extends(reg, r.registry, Get(repo, "repo"))
    ensures r.spawned == [Borg(r.registry[Get(repo, "repo")], repo, map["YeS_PIPE" := "1"],
                               ["delete", ArchiveToken(name), "--force"])]
    ensures r.value == Classify(proc)
  {
    RunBorg(reg, repo, map["YeS_PIPE" := "1"], ["delete", ArchiveToken(name), "--force"], proc)
  }

  /** Restoring into `""` or `/` fails with the guard's error and starts no process. */
  lemma RestoreRefusesRoot(reg: Registry, repo: map<string, string>, name: string, destFolder: string,
                           find: Completed, extract: Completed)
    requires Valid(reg)
    requires destFolder == "" || destFolder == "/"
    ensures Restore(reg, repo, name, destFolder, find, extract) == Outcome(reg, [], Reply("", Some(DeleteRootError)))
  {
  }

  /**
    Unlike a backup-tool run, the delete treats exit code 1 as failure, so a
    restore whose `find` exits with 1 never reaches the repository.
  */
  lemma RestoreAbortsOnFindWarning(reg: Registry, repo: map<string, string>, name: string, destFolder: string,
                                   out: string, errText: string, extract: Completed)
    requires Valid(reg)
    requires destFolder != "" && destFolder != "/"
    ensures var r := Restore(reg, repo, name, destFolder, Completed(out, errText, Some(RunError(1))), extract);
            && r.registry == reg
            && r.spawned == [Find([destFolder, "-mindepth", "1", "-delete"])]
            && r.value == Reply("", Some(ExitError(1)))
  {
  }

  /** Create, restore and delete of the same name all address the same archive. */
  lemma ArchiveTokenAgrees(reg: Registry, repo: map<string, string>, name: string, src: string, dst: string,
                           proc: Completed, find: Completed)
    requires Valid(reg)
    requires dst != "" && dst != "/" && find.err.None?
    ensures Create(reg, repo, name, src, proc).spawned[0].args[2] == "::" + NameEscape(name)
    ensures Restore(reg, repo, name, dst, find, proc).spawned[1].args[1] == "::" + NameEscape(name)
    ensures Delete(reg, repo, name, proc).spawned[0].args[1] == "::" + NameEscape(name)
  {
  }

}

=== FILE: gomap.dfy ===
/** Go's `map[string]string` read semantics. */
module GoMap {

  /** Indexing a Go map with a missing key yields the zero value, here `""`. */
  function Get(m: map<string, string>, k: string): (v: string)
    ensures k !in m ==> v == ""
    ensures k in m ==> v == m[k]
  {
    if k in m then m[k] else ""
  }

}

=== FILE: lock_registry.dfy ===
/**
  The process-wide `lock` map of `lxd/storage/borg/borg.go`: repository
  location to mutex, populated on first use and never shrunk. Only the map is
  modelled; a `Mutex` stands for the identity of one `&sync.Mutex{}`
  allocation.
*/
module LockRegistry {

  datatype Mutex = Mutex(id: nat)

  type Registry = map<string, Mutex>

  /** The registry before any repository has been touched. */
  const Empty: Registry := map[]

  /**
    Every handle was allocated separately: identities are below the number of
    entries and no two locations share one.
  */
  ghost predicate Valid(reg: Registry)
  {
    && (forall l :: l in reg ==> reg[l].id < |reg|)
    && (forall l1, l2 :: l1 in reg && l2 in reg && l1 != l2 ==> reg[l1] != reg[l2])
  }

  /** The registry after a lookup, and the mutex the caller locks. */
  datatype Lease = Lease(registry: Registry, mutex: Mutex)

  /**
    `after` is `before` with `loc` looked up: it gains at most the one
    location and every existing entry keeps its mutex.
  */
  ghost predicate Extends(before: Registry, after: Registry, loc: string)
  {
    && after.Keys == before.Keys + {loc}
    && forall l :: l in before ==> after[l] == before[l]
  }

  /**
    Create-if-absent lookup: an absent location gets a fresh mutex that no
    other location holds; a present one is reused and nothing changes.
  */
  function Acquire(reg: Registry, loc: string): (lease: Lease)
    requires Valid(reg)
    ensures Valid(lease.registry)
    ensures loc in lease.registry && lease.registry[loc] == lease.mutex
    ensures lease.registry.Keys == reg.Keys + {loc}
    ensures forall l :: l in reg ==> lease.registry[l] == reg[l]
    ensures loc in reg ==> lease.registry == reg
    ensures loc !in reg ==> forall l :: l in reg ==> reg[l] != lease.mutex
  {
    if loc in reg then Lease(reg, reg[loc])
    else
      var m := Mutex(|reg|);
      var reg' := reg[loc := m];
      assert |reg'| == |reg| + 1 by {
        assert reg'.Keys == reg.Keys + {loc};
      }
      Lease(reg', m)
  }

  lemma EmptyValid()
    ensures Valid(Empty)
  {
  }

  /** Looking the same location up again returns the same mutex and changes nothing. */
  lemma AcquireReuses(reg: Registry, loc: string)
    requires Valid(reg)
    ensures Acquire(Acquire(reg, loc).registry, loc) == Acquire(reg, loc)
  {
  }

  /**
    Two operations on the same location serialise on one mutex; operations
    on different locations hold different mutexes and do not block each other,
    whatever was looked up in between.
  */
  lemma MutexPerLocation(reg: Registry, l1: string, l2: string)
    requires Valid(reg)
    ensures var a := Acquire(reg, l1);
            var b := Acquire(a.registry, l2);
            (l1 == l2 <==> a.mutex == b.mutex)
  {
  }

}

=== FILE: names.dfy ===
/**
  The archive-name sanitiser of `lxd/storage/borg/borg.go`: every match of the
  regular expression `^.+\/` is replaced by the empty string.

  Under Go's RE2 semantics `^` anchors at the start of the text (no multi-line
  flag), `.` matches any character except a newline, and `.+` is greedy, so the
  one possible match is the LONGEST prefix that ends in `/`, has at least one
  character before that `/`, and has no newline before it.
*/
module Names {

  /** Index of the first newline in `s`, or `|s|` when there is none. */
  function LineEnd(s: string): (n: nat)
    ensures n <= |s|
    ensures forall i :: 0 <= i < n ==> s[i] != '\n'
    ensures n < |s| ==> s[n] == '\n'
  {
    if |s| == 0 then 0
    else if s[0] == '\n' then 0
    else 1 + LineEnd(s[1..])
  }

  /** The last index below `hi` holding `c`, if any. */
  function LastIndexBefore(s: string, c: char, hi: nat): (k: int)
    requires hi <= |s|
    ensures -1 <= k < hi
    ensures k >= 0 ==> s[k] == c
    ensures forall j :: k < j < hi ==> s[j] != c
    decreases hi
  {
    if hi == 0 then -1
    else if s[hi - 1] == c then hi - 1
    else LastIndexBefore(s, c, hi - 1)
  }

  /** `nameEscape`: drop the longest prefix matched by `^.+\/`. */
  function NameEscape(name: string): string
  {
    var k := LastIndexBefore(name, '/', LineEnd(name));
    if k >= 1 then name[k + 1..] else name
  }

  /**
    Reference semantics of the pattern `^.+\/`: the prefix `name[..n]` is a
    match when it is one or more non-newline characters followed by `/`.
  */
  ghost predicate Matches(name: string, n: int)
  {
    && 2 <= n <= |name|
    && name[n - 1] == '/'
    && forall i :: 0 <= i < n - 1 ==> name[i] != '\n'
  }

  /** The match greedy `.+` selects: no longer prefix matches. */
  ghost predicate LongestMatch(name: string, n: int)
  {
    && Matches(name, n)
    && forall m :: n < m <= |name| ==> !Matches(name, m)
  }

  /** A matching prefix always ends before the first newline. */
  lemma MatchBeforeLineEnd(name: string, n: int)
    requires Matches(name, n)
    ensures n - 1 < LineEnd(name)
  {
  }

  /**
    `NameEscape` agrees with the regular-expression semantics: the name is
    unchanged when nothing matches, and otherwise loses exactly the longest
    matching prefix.
  */
  lemma {:induction false} NameEscapeSpec(name: string)
    ensures (forall n :: 0 <= n <= |name| ==> !Matches(name, n)) ==> NameEscape(name) == name
    ensures forall n :: 0 <= n <= |name| && LongestMatch(name, n) ==> NameEscape(name) == name[n..]
  {
    var p := LineEnd(name);
    var k := LastIndexBefore(name, '/', p);
    forall m | Matches(name, m)
      ensures m - 1 <= k && k >= 1
    {
      MatchBeforeLineEnd(name, m);
    }
    if k >= 1 {
      assert Matches(name, k + 1);
      forall n | 0 <= n <= |name| && LongestMatch(name, n)
        ensures n == k + 1
      {
      }
    }
  }

  /** The result is always a suffix of the name: only a prefix is ever removed. */
  lemma NameEscapeIsSuffix(name: string)
    ensures |NameEscape(name)| <= |name|
    ensures NameEscape(name) == name[|name| - |NameEscape(name)|..]
  {
  }

  /** A name without any `/` is returned unchanged. */
  lemma NoSlashUnchanged(name: string)
    requires forall i :: 0 <= i < |name| ==> name[i] != '/'
    ensures NameEscape(name) == name
  {
  }

  /**
    For a newline-free name with a `/` at index one or later, the result is the
    final path segment: everything after the last `/`, itself free of `/`.
  */
  lemma LastSegmentKept(name: string, k: int)
    requires forall i :: 0 <= i < |name| ==> name[i] != '\n'
    requires 1 <= k < |name| && name[k] == '/'
    requires forall j :: k < j < |name| ==> name[j] != '/'
    ensures NameEscape(name) == name[k + 1..]
    ensures forall i :: 0 <= i < |NameEscape(name)| ==> NameEscape(name)[i] != '/'
  {
  }

  /** Sanitising twice is the same as sanitising once. */
  lemma NameEscapeIdempotent(name: string)
    ensures NameEscape(NameEscape(name)) == NameEscape(name)
  {
  }

  /** The path segment of a plain relative path is all that remains. */
  lemma FooBarBecomesBar()
    ensures NameEscape("foo/bar") == "bar"
  {
    LastSegmentKept("foo/bar", 3);
  }

  /**
    `.+` needs one character before the `/`, so a name whose only `/` leads
    keeps that separator: the result is not always free of `/`.
  */
  lemma LeadingSlashKept()
    ensures NameEscape("/etc") == "/etc"
  {
  }

  /** A newline before the last `/` stops `.` from reaching it. */
  lemma NewlineBlocksMatch()
    ensures NameEscape("a\nb/c") == "a\nb/c"
  {
  }

}

=== FILE: options.dfy ===
/** An optional value: Go's `nil` error or a present one. */
module Options {

  datatype Option<+T> = None | Some(value: T)

}
